=== FILE: README.md ===
# PixelsJoinHandle — a Dafny model

The Pixels Trino connector describes a two-table equi-join with a
`PixelsJoinHandle`. This is an immutable value that holds nine fields:

- the left table, its key column and its list of joined (output) columns;
- the same three for the right table;
- `includeKeyColumns`, which says whether the joined columns contain the key columns;
- `joinEndian`, which says which side the executor builds;
- `joinType`.

The class has a constructor that stores its arguments, one getter per field,
and hand-written `equals` and `hashCode`. Both use only seven of the fields.
They leave out `includeKeyColumns` and `joinEndian`, so two handles that differ
only in those two fields are treated as the same join.

The model has three modules:

- `Nullable` (`nullable.dfy`): Java null as `Option.None`. It models Guava's
  `Objects.equal` and `List.equals` for lists that may hold nulls.
- `JoinHandles` (`join_handle.dfy`): the handle datatype, the `Object` argument
  of `equals`, and the equality laws.
- `JoinHashing` (`join_hash.dfy`): `hashCode`. This is Guava's
  `Objects.hashCode`, which folds `h := 31 * h + hash(e)` starting from 1 with
  null hashing to 0. The fold wraps to 32 bits at every step, as Java `int`
  arithmetic does.

Modelling choices:

- The table handle, column handle, join type and join endian are classes
  defined elsewhere. They are opaque types here. The table and column handles
  are compared with their `equals`, modelled as value equality. The join type
  is compared by reference (`==`), which is value equality because `JoinType`
  is an enum.
- Their `hashCode` values are not modelled. They are passed in as a `Hashers`
  value of functions on those values, each returning a Java `int` (`JavaInt`). The hash properties hold for every such
  choice, under the assumptions listed under "Left out".
- A joined-column list is `Option<seq<Option<ColumnHandle>>>`, because both the
  Java list and its elements may be null.
- `equals(Object o)` takes a `Ref`, which is one of four things: null, the
  receiver itself (the `this == o` shortcut), another join handle object, or an
  object of another class. The class is final, so `getClass()` matches exactly
  for join handles.
- The constructor does no validation. Every combination of arguments is
  accepted, null tables and null key columns included, and there is no error
  case.

## Model

| member | source | states |
|---|---|---|
| JoinHandles.AccessorsReturnConstructorArguments | connector/src/main/java/io/pixelsdb/pixels/trino/PixelsJoinHandle.java:50-124 | for every argument combination, nulls included, the constructor yields a handle; each of the nine getters returns exactly the argument given for its field |
| Nullable.NullSafeEquals | connector/src/main/java/io/pixelsdb/pixels/trino/PixelsJoinHandle.java:132-137 | null equals null; null never equals a non-null value; two non-null values are compared by their own equality; overall, true exactly when the two nullable values are the same |
| Nullable.ListEquals | connector/src/main/java/io/pixelsdb/pixels/trino/PixelsJoinHandle.java:134-137 | walking two lists together and comparing each position null-safely is true exactly when the lists have the same elements in the same order |
| Nullable.NullSafeListEquals | connector/src/main/java/io/pixelsdb/pixels/trino/PixelsJoinHandle.java:134-137 | comparing two nullable lists: both null gives true, exactly one null gives false, otherwise true exactly when the lists are identical as sequences |
| JoinHandles.FieldsEqual | connector/src/main/java/io/pixelsdb/pixels/trino/PixelsJoinHandle.java:132-138 | the seven field comparisons hold exactly when the handles agree on their seven compared fields; equivalently, exactly when the first handle becomes the second after copying over the second's `includeKeyColumns` and `joinEndian` |
| JoinHandles.Equals | connector/src/main/java/io/pixelsdb/pixels/trino/PixelsJoinHandle.java:127-139 | `equals` is true for the receiver itself; false for null and for objects of another class; for another join handle, true exactly when the seven compared fields agree |
| JoinHandles.EqualsReflexive | connector/src/main/java/io/pixelsdb/pixels/trino/PixelsJoinHandle.java:129-138 | a handle equals itself, both through the `this == o` shortcut and as a distinct object with the same fields, so the shortcut never changes the answer |
| JoinHandles.EqualsSymmetric | connector/src/main/java/io/pixelsdb/pixels/trino/PixelsJoinHandle.java:132-138 | `a.equals(b)` exactly when `b.equals(a)` |
| JoinHandles.EqualsTransitive | connector/src/main/java/io/pixelsdb/pixels/trino/PixelsJoinHandle.java:132-138 | if `a.equals(b)` and `b.equals(c)` then `a.equals(c)` |
| JoinHandles.ExcludedFieldsIgnored | connector/src/main/java/io/pixelsdb/pixels/trino/PixelsJoinHandle.java:132-138 | changing `includeKeyColumns` and/or `joinEndian` gives a handle equal to the original, in both directions |
| JoinHandles.EqualsIffAgreeOutsideExcluded | connector/src/main/java/io/pixelsdb/pixels/trino/PixelsJoinHandle.java:132-138 | two handles are equal exactly when some choice of `includeKeyColumns` and `joinEndian` turns one into the other |
| JoinHandles.EveryComparedFieldMatters | connector/src/main/java/io/pixelsdb/pixels/trino/PixelsJoinHandle.java:132-138 | replacing any one of the seven compared fields by a different value, null versus non-null included, makes the handles unequal |
| JoinHandles.ReorderingLeftJoinedColumnsBreaksEquality | connector/src/main/java/io/pixelsdb/pixels/trino/PixelsJoinHandle.java:134 | swapping two different left joined columns keeps the same multiset of columns but gives an unequal handle |
| JoinHandles.ReorderingRightJoinedColumnsBreaksEquality | connector/src/main/java/io/pixelsdb/pixels/trino/PixelsJoinHandle.java:137 | swapping two different right joined columns keeps the same multiset of columns but gives an unequal handle |
| JoinHashing.Int32 | connector/src/main/java/io/pixelsdb/pixels/trino/PixelsJoinHandle.java:142-146 | the result is a Java `int` congruent to its argument modulo 2^32, i.e. Java's wrap-around of the value |
| JoinHashing.HashFold | connector/src/main/java/io/pixelsdb/pixels/trino/PixelsJoinHandle.java:144-145 | the `31 * h + e` fold from 1, wrapped to 32 bits at each step, is a Java `int` and equals the unbounded fold wrapped once |
| JoinHashing.NullSafeHashRespectsEquals | connector/src/main/java/io/pixelsdb/pixels/trino/PixelsJoinHandle.java:132-145 | two arguments that `Objects.equal` finds equal (both null, or equal values) get the same `Objects.hashCode` contribution, null counting 0, for any element hash |
| JoinHashing.ListHash | connector/src/main/java/io/pixelsdb/pixels/trino/PixelsJoinHandle.java:144-145 | a null joined-column list contributes 0 to the hash; a present list contributes `List.hashCode`, the 32-bit-wrapped `31 * h + e` fold from 1 over its element hashes in order, with null elements hashing to 0 |
| JoinHashing.HashCode | connector/src/main/java/io/pixelsdb/pixels/trino/PixelsJoinHandle.java:142-146 | `hashCode` returns the Java `int` obtained by wrapping the `31 * h + e` fold from 1 over the hashes of the seven compared fields, in the order they are passed to `Objects.hashCode` |
| JoinHashing.HashDependsOnlyOnKey | connector/src/main/java/io/pixelsdb/pixels/trino/PixelsJoinHandle.java:144-145 | handles that agree on the seven compared fields have the same hash, whatever the hashes of the external values are |
| JoinHashing.HashConsistentWithEquals | connector/src/main/java/io/pixelsdb/pixels/trino/PixelsJoinHandle.java:132-145 | equal handles have equal hashes |
| JoinHashing.HashIgnoresExcludedFields | connector/src/main/java/io/pixelsdb/pixels/trino/PixelsJoinHandle.java:144-145 | changing `includeKeyColumns` and/or `joinEndian` leaves the hash unchanged |

## Left out

- Jackson serialisation (`@JsonCreator`, `@JsonProperty`). The round trip depends on the Jackson library and on serialisers for the table and column handles, none of which are part of this model. The JSON property names are the field names.
- The internal structure of `PixelsTableHandle`, `PixelsColumnHandle`, `JoinType` and `JoinEndian`. These are opaque types; their equality is value equality and their `hashCode` is a parameter.
- Java reference identity, except for the `this == o` shortcut at the start of `equals`. The `a == b` identity test inside Guava's `Objects.equal` is not modelled separately, because with reflexive field equality it cannot change the result.
- `Objects.equal`, `List.equals` and `List.hashCode` are library code. They are modelled from their documented behaviour.
- The numeric value of `hashCode` for concrete handles. The hashes of the external values are parameters, so `hashCode` is fixed only in terms of them.
- The behaviour of `PixelsTableHandle.equals`, `PixelsColumnHandle.equals` and their `hashCode`, whose code is not part of this model. Modelling `equals` as value equality and `hashCode` as a function of the value assumes three things: their `equals` is an equivalence relation (reflexive, symmetric, transitive), it returns false for null, and equal values have equal hashes. JoinHandles.EqualsReflexive, JoinHandles.EqualsSymmetric, JoinHandles.EqualsTransitive and JoinHashing.HashConsistentWithEquals hold for the real class only if those classes keep that contract.
- `joinType` is compared by reference identity (`==`), not by `equals`. The model compares it by value, which agrees because `JoinType` is an enum: each constant is a single object.
- Validation of null fields, composite keys and a failing constructor. The code has none of these.

=== FILE: join_handle.dfy ===
/** The Trino connector's join handle: an immutable description of a two-table
    equi-join, with the class's own `equals`.

    `equals` compares seven of the nine fields and deliberately ignores
    `includeKeyColumns` and `joinEndian`, so two handles that differ only in
    whether key columns are emitted or in which side is built are the same join.
 */
module JoinHandles {
  import opened Nullable

  /** Handles owned by the connector's catalog and the executor; this model only
      stores and compares them. */
  type TableHandle(==)
  type ColumnHandle(==)
  type JoinType(==)
  type JoinEndian(==)

  /** A nullable list of nullable column handles. */
  type ColumnList = Option<seq<Option<ColumnHandle>>>

  /** The join handle.  Its constructor stores every argument unchanged and
      checks nothing; the datatype's destructors are the class's getters. */
  datatype JoinHandle = JoinHandle(
    leftTable: Option<TableHandle>,
    leftKeyColumn: Option<ColumnHandle>,
    leftJoinedColumns: ColumnList,
    rightTable: Option<TableHandle>,
    rightKeyColumn: Option<ColumnHandle>,
    rightJoinedColumns: ColumnList,
    includeKeyColumns: bool,
    joinEndian: Option<JoinEndian>,
    joinType: Option<JoinType>)

  /** The seven fields that take part in equality and hashing. */
  datatype JoinKey = JoinKey(
    leftTable: Option<TableHandle>,
    leftKeyColumn: Option<ColumnHandle>,
    leftJoinedColumns: ColumnList,
    rightTable: Option<TableHandle>,
    rightKeyColumn: Option<ColumnHandle>,
    rightJoinedColumns: ColumnList,
    joinType: Option<JoinType>)

  function Key(h: JoinHandle): JoinKey {
    JoinKey(h.leftTable, h.leftKeyColumn, h.leftJoinedColumns,
            h.rightTable, h.rightKeyColumn, h.rightJoinedColumns, h.joinType)
  }

  /** The argument of `equals(Object o)`, seen from the receiver: null, the
      receiver itself, another join handle object (possibly with the same
      fields), or an object of some other class. */
  datatype Ref = NullRef | ThisRef | JoinRef(handle: JoinHandle) | ForeignRef

  /** The field comparisons of `equals`: null-safe equality of the tables, key
      columns and joined-column lists, and identity of the join type. */
  function FieldsEqual(a: JoinHandle, b: JoinHandle): (r: bool)
    ensures r <==> Key(a) == Key(b)
    ensures r <==> a.(includeKeyColumns := b.includeKeyColumns, joinEndian := b.joinEndian) == b
  {
    && NullSafeEquals(a.leftTable, b.leftTable)
    && NullSafeEquals(a.leftKeyColumn, b.leftKeyColumn)
    && NullSafeListEquals(a.leftJoinedColumns, b.leftJoinedColumns)
    && NullSafeEquals(a.rightTable, b.rightTable)
    && NullSafeEquals(a.rightKeyColumn, b.rightKeyColumn)
    && NullSafeListEquals(a.rightJoinedColumns, b.rightJoinedColumns)
    && a.joinType == b.joinType
  }

  /** `equals(Object o)`: true for the receiver itself, false for null and for
      objects of another class, and otherwise the field comparison. */
  function Equals(self: JoinHandle, o: Ref): (r: bool)
    ensures o.ThisRef? ==> r
    ensures o.NullRef? || o.ForeignRef? ==> !r
    ensures o.JoinRef? ==> (r <==> Key(self) == Key(o.handle))
  {
    match o
    case ThisRef => true
    case NullRef => false
    case ForeignRef => false
    case JoinRef(that) => FieldsEqual(self, that)
  }

  /** The constructor accepts every combination of arguments, null ones
      included, and each getter returns the argument given for its field. */
  lemma AccessorsReturnConstructorArguments(
    leftTable: Option<TableHandle>, leftKeyColumn: Option<ColumnHandle>, leftJoinedColumns: ColumnList,
    rightTable: Option<TableHandle>, rightKeyColumn: Option<ColumnHandle>, rightJoinedColumns: ColumnList,
    includeKeyColumns: bool, joinEndian: Option<JoinEndian>, joinType: Option<JoinType>)
    ensures var h := JoinHandle(leftTable, leftKeyColumn, leftJoinedColumns,
                                rightTable, rightKeyColumn, rightJoinedColumns,
                                includeKeyColumns, joinEndian, joinType);
            && h.leftTable == leftTable && h.leftKeyColumn == leftKeyColumn
            && h.leftJoinedColumns == leftJoinedColumns
            && h.rightTable == rightTable && h.rightKeyColumn == rightKeyColumn
            && h.rightJoinedColumns == rightJoinedColumns
            && h.includeKeyColumns == includeKeyColumns
            && h.joinEndian == joinEndian && h.joinType == joinType
  {
  }

  /** The `this == o` shortcut never changes the answer: a handle also equals a
      distinct object holding the same fields. */
  lemma EqualsReflexive(h: JoinHandle)
    ensures Equals(h, ThisRef)
    ensures Equals(h, JoinRef(h))
  {
  }

  lemma EqualsSymmetric(a: JoinHandle, b: JoinHandle)
    ensures Equals(a, JoinRef(b)) <==> Equals(b, JoinRef(a))
  {
  }

  lemma EqualsTransitive(a: JoinHandle, b: JoinHandle, c: JoinHandle)
    requires Equals(a, JoinRef(b)) && Equals(b, JoinRef(c))
    ensures Equals(a, JoinRef(c))
  {
  }

  /** Changing `includeKeyColumns` and/or `joinEndian` gives an equal handle. */
  lemma ExcludedFieldsIgnored(h: JoinHandle, includeKeyColumns: bool, joinEndian: Option<JoinEndian>)
    ensures Equals(h, JoinRef(h.(includeKeyColumns := includeKeyColumns, joinEndian := joinEndian)))
    ensures Equals(h.(includeKeyColumns := includeKeyColumns, joinEndian := joinEndian), JoinRef(h))
  {
  }

  /** Two handles are equal exactly when they agree on everything except
      `includeKeyColumns` and `joinEndian`. */
  lemma EqualsIffAgreeOutsideExcluded(a: JoinHandle, b: JoinHandle)
    ensures Equals(a, JoinRef(b)) <==>
            exists inc: bool, endian: Option<JoinEndian> ::
              a.(includeKeyColumns := inc, joinEndian := endian) == b
  {
    if Equals(a, JoinRef(b)) {
      assert a.(includeKeyColumns := b.includeKeyColumns, joinEndian := b.joinEndian) == b;
    }
  }

  /** Replacing any single compared field by a different value makes the
      handles unequal; null and non-null values are different values. */
  lemma EveryComparedFieldMatters(
    h: JoinHandle,
    leftTable: Option<TableHandle>, leftKeyColumn: Option<ColumnHandle>, leftJoinedColumns: ColumnList,
    rightTable: Option<TableHandle>, rightKeyColumn: Option<ColumnHandle>, rightJoinedColumns: ColumnList,
    joinType: Option<JoinType>)
    ensures leftTable != h.leftTable ==> !Equals(h, JoinRef(h.(leftTable := leftTable)))
    ensures leftKeyColumn != h.leftKeyColumn ==> !Equals(h, JoinRef(h.(leftKeyColumn := leftKeyColumn)))
    ensures leftJoinedColumns != h.leftJoinedColumns ==>
              !Equals(h, JoinRef(h.(leftJoinedColumns := leftJoinedColumns)))
    ensures rightTable != h.rightTable ==> !Equals(h, JoinRef(h.(rightTable := rightTable)))
    ensures rightKeyColumn != h.rightKeyColumn ==> !Equals(h, JoinRef(h.(rightKeyColumn := rightKeyColumn)))
    ensures rightJoinedColumns != h.rightJoinedColumns ==>
              !Equals(h, JoinRef(h.(rightJoinedColumns := rightJoinedColumns)))
    ensures joinType != h.joinType ==> !Equals(h, JoinRef(h.(joinType := joinType)))
  {
  }

  /** The list with the elements at positions `i` and `j` exchanged. */
  function Swap<T>(xs: seq<T>, i: nat, j: nat): (ys: seq<T>)
    requires i < |xs| && j < |xs|
    ensures |ys| == |xs| && ys[i] == xs[j] && ys[j] == xs[i]
    ensures forall k :: 0 <= k < |xs| && k != i && k != j ==> ys[k] == xs[k]
    ensures multiset(ys) == multiset(xs)
  {
    xs[i := xs[j]][j := xs[i]]
  }

  /** Exchanging two different left joined columns keeps the same columns but
      makes the handle unequal: list equality is order-sensitive. */
  lemma ReorderingLeftJoinedColumnsBreaksEquality(h: JoinHandle, i: nat, j: nat)
    requires h.leftJoinedColumns.Some?
    requires i < |h.leftJoinedColumns.value| && j < |h.leftJoinedColumns.value|
    requires h.leftJoinedColumns.value[i] != h.leftJoinedColumns.value[j]
    ensures multiset(Swap(h.leftJoinedColumns.value, i, j)) == multiset(h.leftJoinedColumns.value)
    ensures !Equals(h, JoinRef(h.(leftJoinedColumns := Some(Swap(h.leftJoinedColumns.value, i, j)))))
  {
    var xs := h.leftJoinedColumns.value;
    assert Swap(xs, i, j)[i] != xs[i];
  }

  /** The same for the right joined columns. */
  lemma ReorderingRightJoinedColumnsBreaksEquality(h: JoinHandle, i: nat, j: nat)
    requires h.rightJoinedColumns.Some?
    requires i < |h.rightJoinedColumns.value| && j < |h.rightJoinedColumns.value|
    requires h.rightJoinedColumns.value[i] != h.rightJoinedColumns.value[j]
    ensures multiset(Swap(h.rightJoinedColumns.value, i, j)) == multiset(h.rightJoinedColumns.value)
    ensures !Equals(h, JoinRef(h.(rightJoinedColumns := Some(Swap(h.rightJoinedColumns.value, i, j)))))
  {
    var xs := h.rightJoinedColumns.value;
    assert Swap(xs, i, j)[i] != xs[i];
  }
}

=== FILE: join_hash.dfy ===
/** `hashCode` of the join handle: Guava `Objects.hashCode` over the same seven
    fields that `equals` compares.

    `Objects.hashCode(a, b, ...)` and `List.hashCode` both fold their elements
    as `h := 31 * h + hash(e)` starting from 1, with null hashing to 0, in Java
    `int` arithmetic.  The hashes of the table, column and join-type values are
    not part of this model; they are passed in as a `Hashers` value.
 */
module JoinHashing {
  import opened Nullable
  import opened JoinHandles

  const TwoTo31: int := 0x8000_0000
  const TwoTo32: int := 0x1_0000_0000

  predicate IsJavaInt(x: int) {
    -TwoTo31 <= x < TwoTo31
  }

  /** The values of Java's 32-bit `int`, the result type of `hashCode`. */
  type JavaInt = x: int | IsJavaInt(x)

  /** Two integers that Java's 32-bit `int` cannot tell apart. */
  predicate Congruent(a: int, b: int) {
    (a - b) % TwoTo32 == 0
  }

  /** The Java `int` that an unbounded integer wraps around to. */
  function Int32(x: int): (r: int)
    ensures IsJavaInt(r)
    ensures Congruent(x, r)
  {
    (x + TwoTo31) % TwoTo32 - TwoTo31
  }

  /** `hashCode` of the external values stored in a handle. */
  datatype Hashers = Hashers(
    table: TableHandle -> JavaInt,
    column: ColumnHandle -> JavaInt,
    joinType: JoinType -> JavaInt)

  /** The same fold in unbounded arithmetic. */
  function Polynomial(hs: seq<int>): int {
    if |hs| == 0 then 1 else 31 * Polynomial(hs[..|hs| - 1]) + hs[|hs| - 1]
  }

  /** The order-sensitive fold shared by `Arrays.hashCode` and `List.hashCode`,
      over the element hashes in order.  Wrapping after every step, as Java
      `int` arithmetic does, gives the same `int` as folding in unbounded
      arithmetic and wrapping once. */
  function HashFold(hs: seq<int>): (r: JavaInt)
    ensures r == Int32(Polynomial(hs))
  {
    if |hs| == 0 then
      1
    else
      var init, last := hs[..|hs| - 1], hs[|hs| - 1];
      WrapStep(HashFold(init), Polynomial(init), last);
      Int32(31 * HashFold(init) + last)
  }

  lemma MultipleIsCongruent(a: int, b: int, k: int)
    requires a - b == TwoTo32 * k
    ensures Congruent(a, b)
  {
  }

  lemma CongruentAsMultiple(a: int, b: int) returns (k: int)
    requires Congruent(a, b)
    ensures a - b == TwoTo32 * k
  {
    k := (a - b) / TwoTo32;
  }

  lemma CongruentTransitive(a: int, b: int, c: int)
    requires Congruent(a, b) && Congruent(b, c)
    ensures Congruent(a, c)
  {
    var k := CongruentAsMultiple(a, b);
    var m := CongruentAsMultiple(b, c);
    MultipleIsCongruent(a, c, k + m);
  }

  /** One step of the fold: wrapping the running hash before the step does
      not change the wrapped result. */
  lemma WrapStep(p: int, x: int, c: int)
    requires p == Int32(x)
    ensures Int32(31 * p + c) == Int32(31 * x + c)
  {
    var k := CongruentAsMultiple(x, p);
    MultipleIsCongruent(31 * p + c, 31 * x + c, -31 * k);
    CongruentTransitive(Int32(31 * p + c), 31 * p + c, 31 * x + c);
    WrapOfCongruentJavaInt(Int32(31 * p + c), 31 * x + c);
  }

  /** A Java `int` is the wrap of every integer congruent to it. */
  lemma WrapOfCongruentJavaInt(r: int, x: int)
    requires IsJavaInt(r) && Congruent(r, x)
    ensures r == Int32(x)
  {
    CongruentTransitive(r, x, Int32(x));
    var d := CongruentAsMultiple(r, Int32(x));
    assert -TwoTo32 < TwoTo32 * d < TwoTo32;
  }

  /** `Objects.hashCode` of one argument: 0 for null, else its own hash. */
  function NullSafeHash<T>(o: Option<T>, hash: T -> int): int {
    match o
    case None => 0
    case Some(x) => hash(x)
  }

  /** Arguments that `Objects.equal` finds equal have the same null-safe hash. */
  lemma NullSafeHashRespectsEquals<T>(a: Option<T>, b: Option<T>, hash: T -> int)
    requires NullSafeEquals(a, b)
    ensures NullSafeHash(a, hash) == NullSafeHash(b, hash)
  {
  }

  /** The per-element hashes of a column list, null elements giving 0. */
  function ElementHashes(xs: seq<Option<ColumnHandle>>, hashers: Hashers): seq<int> {
    seq(|xs|, i requires 0 <= i < |xs| => NullSafeHash(xs[i], hashers.column))
  }

  /** `Objects.hashCode` contribution of a nullable column list: 0 for null,
      else `List.hashCode`. */
  function ListHash(cols: ColumnList, hashers: Hashers): (r: JavaInt)
    ensures cols.None? ==> r == 0
    ensures cols.Some? ==> r == Int32(Polynomial(ElementHashes(cols.value, hashers)))
  {
    match cols
    case None => 0
    case Some(xs) => HashFold(ElementHashes(xs, hashers))
  }

  /** The hashes of the seven compared fields, in the order `hashCode` passes
      them to `Objects.hashCode`. */
  function FieldHashes(k: JoinKey, hashers: Hashers): seq<int> {
    [ NullSafeHash(k.leftTable, hashers.table),
      NullSafeHash(k.leftKeyColumn, hashers.column),
      ListHash(k.leftJoinedColumns, hashers),
      NullSafeHash(k.rightTable, hashers.table),
      NullSafeHash(k.rightKeyColumn, hashers.column),
      ListHash(k.rightJoinedColumns, hashers),
      NullSafeHash(k.joinType, hashers.joinType) ]
  }

  /** `hashCode()`: a Java `int` computed from the seven compared fields only. */
  function HashCode(h: JoinHandle, hashers: Hashers): (r: JavaInt)
    ensures r == Int32(Polynomial(FieldHashes(Key(h), hashers)))
  {
    HashFold(FieldHashes(Key(h), hashers))
  }

  /** Handles that agree on the seven compared fields hash alike. */
  lemma HashDependsOnlyOnKey(a: JoinHandle, b: JoinHandle, hashers: Hashers)
    requires Key(a) == Key(b)
    ensures HashCode(a, hashers) == HashCode(b, hashers)
  {
  }

  /** Equal handles have equal hashes, whatever the external hashes are. */
  lemma HashConsistentWithEquals(a: JoinHandle, b: JoinHandle, hashers: Hashers)
    requires Equals(a, JoinRef(b))
    ensures HashCode(a, hashers) == HashCode(b, hashers)
  {
  }

  /** Changing `includeKeyColumns` and/or `joinEndian` leaves the hash alone. */
  lemma HashIgnoresExcludedFields(h: JoinHandle, inc: bool, endian: Option<JoinEndian>, hashers: Hashers)
    ensures HashCode(h.(includeKeyColumns := inc, joinEndian := endian), hashers) == HashCode(h, hashers)
  {
  }
}

=== FILE: nullable.dfy ===
/** Java references that may be null, and Guava's null-safe `Objects.equal`.

    A Java field of reference type either holds null or points at a value; the
    model writes that as `Option`, with `None` for null.  The `equals` method of
    the referenced classes is modelled as value equality (`==`).
 */
module Nullable {

  /** A nullable reference: `None` is Java's null. */
  datatype Option<+T> = None | Some(value: T)

  /** Guava `Objects.equal(a, b)`: true when both are null, false when exactly
      one is null, and otherwise the referenced values' own equality. */
  function NullSafeEquals<T(==)>(a: Option<T>, b: Option<T>): (r: bool)
    ensures a.None? && b.None? ==> r
    ensures a.None? != b.None? ==> !r
    ensures a.Some? && b.Some? ==> (r <==> a.value == b.value)
    ensures r <==> a == b
  {
    match (a, b)
    case (None, None) => true
    case (Some(x), Some(y)) => x == y
    case _ => false
  }

  /** `List.equals` for two non-null lists whose elements may be null: the lists
      are walked together, element pairs are compared null-safely, and the lists
      are equal only when both run out at the same time. */
  function ListEquals<T(==)>(xs: seq<Option<T>>, ys: seq<Option<T>>): (r: bool)
    ensures r <==> xs == ys
  {
    if |xs| == 0 || |ys| == 0 then
      |xs| == 0 && |ys| == 0
    else
      assert xs == [xs[0]] + xs[1..] && ys == [ys[0]] + ys[1..];
      NullSafeEquals(xs[0], ys[0]) && ListEquals(xs[1..], ys[1..])
  }

  /** Guava `Objects.equal` applied to two nullable lists: null-safe on the list
      references, element-wise `List.equals` when both are present. */
  function NullSafeListEquals<T(==)>(a: Option<seq<Option<T>>>, b: Option<seq<Option<T>>>): (r: bool)
    ensures a.None? && b.None? ==> r
    ensures a.None? != b.None? ==> !r
    ensures r <==> a == b
  {
    match (a, b)
    case (None, None) => true
    case (Some(xs), Some(ys)) => ListEquals(xs, ys)
    case _ => false
  }
}
